=== FILE: README.md ===
# User-profile controller, modelled in Dafny

This project models the user-profile controller of the user service in a
chat platform. The controller has four request handlers:

- `getUser` searches profiles by username through a `search:<query>` cache
  entry that lives 300 seconds.
- `getCurrentUser` reads the caller's profile through a `user:<id>` cache
  entry that never expires.
- `updateUserInfo` is a partial profile update. A falsy field keeps the
  stored value. When an avatar is given, the handler also queues one
  avatar-processing job.
- `removeFriend` does a two-sided friendship removal. The two removals run
  inside one store transaction. Then come two permission invalidations and
  one `chat.deleted` event. The store session is ended on every exit.

Every handler is a pure function from a `State` and a request to an
`Outcome`, which holds the new state and the response (status, `success`
flag, body). The state holds these parts:

- the user store (`map<Id, User>`);
- the cache, whose values are stored decoded together with their expiry;
- a log of cache and store reads;
- the queued jobs;
- the completed permission invalidations;
- the published events;
- the counts of sessions opened and ended.

External calls that can throw are named by `Call`. The `Env` of a request
says which of them throw, and whether the store connection handle exists.
A throw takes the handler to its `catch` block, just as in the source.

The first response sent is the one the client receives. A second send throws
(the headers are already out), and the `catch` block's own 500 send then
throws too. This explains how `getUser` behaves when the request has a body:
- the client gets 400 "body not allowed";
- the handler still probes the cache and, on a miss, runs the text query;
- sending the results then throws, so the cache write is never reached.

Three behaviours of the code are easy to misread; the model follows the code:
- On a cache hit, `getCurrentUser` answers `success: false`.
- `updateUserInfo` answers 201 with `success: false`.
- The search refusal does not stop the handler.

Modules:
- `Domain`: the types, constants and cache keys.
- `Search`: the limited, email-free text query.
- `Friendship`: the edges, symmetry and the two-sided `$pull`.
- `ProfileReads`, `ProfileUpdate`, `FriendRemoval`: the handlers.
- `Scenarios`: properties that span several requests.
- `Findings`: two defects, each shown as written and corrected.

## Model

| member | source | states |
|---|---|---|
| Domain.KeysAreDisjoint | user-service/src/controller/user.controller.ts:63 | A `user:<id>` key never equals a `search:<query>` key, so the two cache namespaces cannot overwrite each other |
| Domain.SearchKeyInjective | user-service/src/controller/user.controller.ts:24 | Two searches share a cache entry exactly when their queries are equal |
| Domain.UserKeyInjective | user-service/src/controller/user.controller.ts:79 | Two users share a profile cache entry exactly when their ids are equal |
| Search.TopMatches | user-service/src/controller/user.controller.ts:33-40 | The search returns at most `limit` hits, no more than were ranked. Each hit is a stored, ranked record with the email projected away |
| Search.TopMatchesIsFirstStored | user-service/src/controller/user.controller.ts:33-40 | The search result equals an independent reference: the first `limit` stored documents of the ranking, each summarized |
| Search.ShortResultIsComplete | user-service/src/controller/user.controller.ts:38 | Only the limit drops matches: when fewer than `limit` hits return, every stored ranked document is among them |
| Friendship.Pull | user-service/src/controller/user.controller.ts:147-153 | `$pull` removes the id from one record's friends and leaves all its other fields. Other records stay as they were, and a missing record stays missing |
| Friendship.PullBoth | user-service/src/controller/user.controller.ts:146-162 | After the two pulls, neither party lists the other. Every third record is unchanged, and no username, bio or email changes |
| Friendship.PullBothEdges | user-service/src/controller/user.controller.ts:146-162 | The two pulls remove exactly the two directed edges between the pair from the edge set, and nothing else |
| Friendship.PullBothPreservesSymmetry | user-service/src/controller/user.controller.ts:146-162 | If A lists B exactly when B lists A before the two pulls, this still holds after them |
| Friendship.OnePullBreaksSymmetry | user-service/src/controller/user.controller.ts:146-162 | One pull without the other breaks symmetry whenever the edge existed. That is why both pulls share one transaction |
| ProfileReads.GetUser | user-service/src/controller/user.controller.ts:11-54 | Missing or empty username: 400, nothing read or written. Body present: 400, cache unchanged, and the search still runs. Hit: the cached payload verbatim and no text query. Miss: at most 10 email-free hits, cached with TTL 300 under `search:<q>`, no other key changed. A failing cache read or query answers 500. The store and all side-effect logs are untouched |
| ProfileReads.GetCurrentUser | user-service/src/controller/user.controller.ts:56-87 | Hit: the cached snapshot with `success: false` and no store read. Unknown user: 404 and cache unchanged. Stored user: its snapshot is cached under `user:<id>` without TTL and returned. Failures answer 500 and cache nothing. Only that key can change |
| ProfileUpdate.Patch | user-service/src/controller/user.controller.ts:115-118 | Username and bio take a truthy new value or keep the old one. Email and friends never change |
| ProfileUpdate.AvatarJob | user-service/src/controller/user.controller.ts:99-113 | The queued job is `upload-avatar` with `{imagePath, userId}`, 3 attempts and exponential backoff of 3000 ms. It is removed on both completion and failure |
| ProfileUpdate.UpdateUserInfo | user-service/src/controller/user.controller.ts:89-128 | Unknown user: 404 and only the lookup happens. Otherwise exactly one avatar job is queued when the avatar is truthy, and none when it is not. The patched record is saved and the answer is 201 with `success: false`. A failed save answers 500 and leaves the record unchanged, while the job, queued before the save, stays. The cache, including `user:<id>`, is never touched, and no other record changes |
| ProfileUpdate.PatchIdempotent | user-service/src/controller/user.controller.ts:115-116 | Applying the same update twice stores what applying it once stores |
| ProfileUpdate.FalsyPatchIsIdentity | user-service/src/controller/user.controller.ts:115-116 | An update with falsy username and bio leaves the record as it was, so a falsy value never clears a field |
| FriendRemoval.RemovalSteps | user-service/src/controller/user.controller.ts:139-179 | The pulls apply exactly when the session exists, the pair differs and the transaction does not fail. The answer is 200 exactly when the pair differs and no later step throws |
| FriendRemoval.RemoveFriend | user-service/src/controller/user.controller.ts:132-183 | A failing session start answers 500 and changes nothing, but only with a connection; without one the start is never called. Self-unfriend: 400, nothing pulled, invalidated or published. On commit, both pulls are applied. A 200 answer carries the invalidations `[userId, friendId]` in that order and exactly one `chat.deleted {user1, user2}` event. Without a connection, a 200 comes with no pull (see Findings). A failed invalidation after commit answers 500 with the pulls kept. The session opened is ended on every path, and the cache is untouched |
| FriendRemoval.UnconnectedIgnoresStartFault | user-service/src/controller/user.controller.ts:137 | With no connection, `connection?.startSession()` never calls the start, so a start fault changes nothing and a fault-free removal still answers 200 |
| FriendRemoval.RemoveFriendPreservesSymmetry | user-service/src/controller/user.controller.ts:146-162 | Every path of the removal keeps a symmetric friendship relation symmetric |
| FriendRemoval.RemoveFriendEdges | user-service/src/controller/user.controller.ts:146-162 | On commit, the edge set loses exactly the pair's two edges. Otherwise it is unchanged |
| FriendRemoval.RemoveFriendIdempotentOnStore | user-service/src/controller/user.controller.ts:146-162 | Repeating the removal leaves the store as the first removal left it |
| Scenarios.SearchMissThenHit | user-service/src/controller/user.controller.ts:24-48 | After a miss has cached its results, the same search answers them verbatim from the cache with no text query, whatever the store and the ranking hold by then |
| Scenarios.CurrentUserMissThenHit | user-service/src/controller/user.controller.ts:63-81 | After a miss has cached a profile snapshot, the next read answers that snapshot with no store read |
| Scenarios.StaleProfileAfterUpdate | user-service/src/controller/user.controller.ts:115-118 | Read, then change the username, then read again: the second read answers the old username while the store holds the new one |
| Scenarios.StaleFriendsAfterRemoval | user-service/src/controller/user.controller.ts:146-176 | After a successful removal, a previously cached profile snapshot still lists the removed friend |
| Scenarios.NamespacesDoNotInterfere | user-service/src/controller/user.controller.ts:24-79 | A search never changes a `user:` entry, and a profile read never changes a `search:` entry |
| Scenarios.OtherSearchesUntouched | user-service/src/controller/user.controller.ts:43-48 | A search never changes the cache entry of a different query |
| Scenarios.ReadsPreserveSymmetry | user-service/src/controller/user.controller.ts:11-87 | The search and the profile read keep the friendship relation symmetric on every path |
| Scenarios.UpdatePreservesSymmetry | user-service/src/controller/user.controller.ts:89-128 | The profile update keeps the friendship relation symmetric on every path |
| Findings.RefusedSearchStillQueries | user-service/src/controller/user.controller.ts:15-22 | As written: a request with a body is answered 400, yet the text query runs |
| Findings.GetUserRejectingBody | user-service/src/controller/user.controller.ts:15-22 | Corrected: a request with a body is answered 400 and reads and writes nothing. One without a body still searches on a miss |
| Findings.GetUserRejectingBodyAgrees | user-service/src/controller/user.controller.ts:11-54 | The corrected search answers and changes exactly what the original does for every request without a body |
| Findings.UnconnectedRemovalReportsSuccess | user-service/src/controller/user.controller.ts:137-176 | As written: with no store connection, the removal answers success while the friendship is still listed |
| Findings.RemoveFriendRequiringSession | user-service/src/controller/user.controller.ts:137-176 | Corrected: a success answer means neither party lists the other and one `chat.deleted` event was published. Symmetry and session balance are kept |

## Findings

| source | as written | input that shows it | evidently intended | confidence | as-written member | corrected member |
|---|---|---|---|---|---|---|
| user-service/src/controller/user.controller.ts:15-17 | The body refusal sends 400 but does not return, so the handler goes on to the cache and the text query | query `alice`, body length 1, empty cache | a refused request touches no store | high, not executed | Findings.RefusedSearchStillQueries | Findings.GetUserRejectingBody |
| user-service/src/controller/user.controller.ts:137-176 | `connection?.startSession()` and `session?.withTransaction` skip the transaction when there is no connection. The handler still invalidates, publishes and answers 200 | `alice` and `bob` are friends, no store connection, no failures | success only after the friendship is removed | medium, not executed | Findings.UnconnectedRemovalReportsSuccess | Findings.RemoveFriendRequiringSession |

## Left out

- Express request and response plumbing, `logger` and `console.log` are not modelled. A response is a status, an optional `success` flag and a body. The `{message: error}` body of a catch block is `Thrown`.
- The Redis, MongoDB/Mongoose, RabbitMQ and BullMQ clients are replaced by maps and append-only logs. A call that throws is named in `Env.faults`.
- MongoDB text-score ranking is not modelled. The index's ranking arrives as the `ranked` parameter, which is taken to list each document at most once; a ranking that repeats an id would repeat its hit.
- Search.TopMatches: does not state descending-score order, because the ranking is the text index's and enters as a parameter. Its order is kept as given.
- `JSON.stringify`/`JSON.parse` are left out. Cache values are stored decoded, and a value read back is the value written. Neither JSON of an array nor JSON of an object is ever empty, so every present key is a hit. A foreign value that fails to parse is not modelled.
- TTL expiry over time is not modelled. Only the TTL a value was written with is recorded.
- BullMQ's retries and backoff are not executed. Only the options passed are recorded.
- `queue.add` and `publishEvent` are not awaited. Their asynchronous failures never reach the handler, so they are not modelled. A `Publish` fault is a synchronous throw.
- The module-level `session` variable and the interleaving of concurrent requests are left out. The session is per call. When `startSession` throws, nothing is opened or ended. The source's `finally` would then end a stale session left by an earlier request.
- `invalidatePermissions` lives in a module that is not part of this model. It is modelled as an append to the invalidation log that touches no cache key, so Scenarios.StaleFriendsAfterRemoval holds only under that assumption.
- A failing `endSession` is left out. It throws after the response has been sent.
- The search hits' `score` field is left out. So are all user fields other than username, bio, email and friends, such as avatar, password and timestamps.
- Request fields of other JSON types are not modelled. `username`, `bio` and `avatar` are optional strings, and the body's `length` is a natural number.
- FriendRemoval.RemoveFriend: a missing `friendId` is not modelled; `friendId` is a required id. In the source, an absent `friendId` runs the pulls, both invalidations and the publish with `undefined` and answers 200.
- ProfileReads.GetUser: the unhandled rejection is not modelled. When the handler sends a second response, that send throws, and the catch block's own 500 send throws again. This happens on every request whose body has a `length` above 0, and on a miss whose cache write fails. The error then escapes the catch block and the handler's promise rejects. Express 4 does not handle that rejection, and by default Node 15 and later stops the process on it. An `Outcome` records only the response the client received.
- auth-service/src/utils/validate.ts is not part of this model. It only declares validation schemas for a library whose semantics are not visible here.

=== FILE: domain.dfy ===
/** The abstract state the user-profile controller works on: the primary user
    store, the key-value cache, the logs of side effects handed to the job queue,
    the permission-invalidation collaborator and the event publisher, and the
    count of store sessions opened and ended.

    Every external collaborator is reduced to a value here. A call that can fail
    is named by a `Call`; the environment of one request says which calls throw. */
module Domain {

  datatype Option<+T> = None | Some(value: T)

  /** Identities are the string form of the store's document ids. */
  type Id = string

  datatype User = User(username: string, bio: string, email: string, friends: set<Id>)

  /** A search hit: the stored record with the email field projected away. */
  datatype Summary = Summary(id: Id, username: string, bio: string, friends: set<Id>)

  /** What a cache value decodes to. JSON of an array or object is never the
      empty string, so every stored value is truthy when read back. */
  datatype Payload = SearchHits(hits: seq<Summary>) | Snapshot(id: Id, user: User)

  /** A cache value and the expiry, in seconds, it was written with (None: no expiry). */
  datatype CacheEntry = CacheEntry(value: Payload, ttl: Option<nat>)

  /** Reads issued against the cache and the primary store. */
  datatype Probe = CacheRead(key: string) | TextQuery(query: string) | FindUser(id: Id)

  datatype Backoff = Backoff(kind: string, delay: nat)

  /** A job handed to the background queue, with the options it was added with. */
  datatype Job = Job(name: string, imagePath: string, userId: Id, attempts: nat,
                     backoff: Backoff, removeOnComplete: bool, removeOnFail: bool)

  datatype Event = Event(topic: string, user1: Id, user2: Id)

  datatype State = State(
    users: map<Id, User>,
    cache: map<string, CacheEntry>,
    probes: seq<Probe>,
    jobs: seq<Job>,
    invalidations: seq<Id>,
    events: seq<Event>,
    sessionsOpened: nat,
    sessionsEnded: nat
  )

  /** The external calls a handler makes that may throw. */
  datatype Call =
    | CacheGet | CacheSet | TextSearch | FindById | Save
    | StartSession | Transaction | Invalidate(id: Id) | Publish

  /** The environment of one request: whether the store connection handle
      exists, and which external calls throw during this request. */
  datatype Env = Env(connected: bool, faults: set<Call>)

  datatype Body =
    | Message(text: string)
    | CachedResult(payload: Payload)
    | Results(items: seq<Summary>)
    | CurrentUser(snapshot: Payload)
    | Thrown  // the caught error object, echoed as `message`

  /** The status, the `success` flag (None when the body has none) and the body. */
  datatype Response = Response(status: nat, success: Option<bool>, body: Body)

  datatype Outcome = Outcome(state: State, response: Response)

  const SearchLimit: nat := 10
  const SearchTtl: nat := 5 * 60
  const AvatarJobName := "upload-avatar"
  const AvatarAttempts: nat := 3
  const AvatarBackoff := Backoff("exponential", 3000)
  const ChatDeleted := "chat.deleted"

  /** JavaScript truthiness of an optional string: present and non-empty. */
  predicate Truthy(s: Option<string>) {
    s.Some? && s.value != ""
  }

  function SearchKey(query: string): string {
    "search:" + query
  }

  function UserKey(id: Id): string {
    "user:" + id
  }

  /** The catch-all answer of the read and update handlers. */
  const ServerError := Response(500, None, Thrown)

  /** The 404 answer of the profile read and the profile update. */
  const UserNotFound := Response(404, Some(false), Message("user not found"))

  /** Two caches that differ at most at `key`. */
  predicate AgreeExcept(c: map<string, CacheEntry>, c': map<string, CacheEntry>, key: string) {
    c - {key} == c' - {key}
  }

  /** Caches that agree except at `key` agree at every other key. */
  lemma AgreeExceptElsewhere(c: map<string, CacheEntry>, c': map<string, CacheEntry>, key: string, other: string)
    requires AgreeExcept(c, c', key) && other != key
    ensures other in c' <==> other in c
    ensures other in c' ==> c'[other] == c[other]
  {
    assert other in c <==> other in c - {key};
    assert other in c' <==> other in c' - {key};
    if other in c' {
      assert (c' - {key})[other] == c'[other];
      assert (c - {key})[other] == c[other];
    }
  }

  /** No user record, job, invalidation, event or session changed between `s` and `t`. */
  predicate SameEffects(s: State, t: State) {
    && t.users == s.users
    && t.jobs == s.jobs
    && t.invalidations == s.invalidations
    && t.events == s.events
    && t.sessionsOpened == s.sessionsOpened
    && t.sessionsEnded == s.sessionsEnded
  }

  /** The two cache namespaces never share a key. */
  lemma KeysAreDisjoint(query: string, id: Id)
    ensures SearchKey(query) != UserKey(id)
  {
    assert SearchKey(query)[0] == 's';
    assert UserKey(id)[0] == 'u';
  }

  /** Two searches share a cache key exactly when their queries are equal. */
  lemma SearchKeyInjective(q1: string, q2: string)
    ensures SearchKey(q1) == SearchKey(q2) <==> q1 == q2
  {
    if SearchKey(q1) == SearchKey(q2) {
      assert q1 == SearchKey(q1)[7..];
      assert q2 == SearchKey(q2)[7..];
    }
  }

  /** Two users share a profile cache key exactly when their ids are equal. */
  lemma UserKeyInjective(a: Id, b: Id)
    ensures UserKey(a) == UserKey(b) <==> a == b
  {
    if UserKey(a) == UserKey(b) {
      assert a == UserKey(a)[5..];
      assert b == UserKey(b)[5..];
    }
  }
}

=== FILE: findings.dfy ===
/** Two places where the handlers as written do something their own checks
    evidently mean to prevent, each exhibited on a concrete input, next to the
    corrected handler and the property it was meant to have. */
module Findings {
  import opened Domain
  import opened Friendship
  import opened ProfileReads
  import opened FriendRemoval

  const Alice := "alice"
  const Bob := "bob"

  function EmptyState(users: map<Id, User>): State {
    State(users, map[], [], [], [], [], 0, 0)
  }

  /** As written, a search with a body is answered 400 but still runs the text
      query: the refusal sends a response and falls through. */
  lemma RefusedSearchStillQueries()
    ensures var out := GetUser(EmptyState(map[]), Env(true, {}), Some(Alice), 1, []);
            out.response == BodyNotAllowed && TextQuery(Alice) in out.state.probes
  {
    var out := GetUser(EmptyState(map[]), Env(true, {}), Some(Alice), 1, []);
    assert out.state.probes == [CacheRead(SearchKey(Alice)), TextQuery(Alice)];
  }

  /** The search handler with the refusal returning at once: a request with a
      body reads and writes nothing, and one without behaves as before. */
  function GetUserRejectingBody(s: State, env: Env, username: Option<string>, bodyLength: nat,
                                ranked: seq<Id>): (out: Outcome)
    ensures bodyLength > 0 ==> out.state == s && out.response.status == 400
    ensures bodyLength == 0 && Truthy(username) && CacheGet !in env.faults
            && SearchKey(username.value) !in s.cache && TextSearch !in env.faults ==>
              TextQuery(username.value) in out.state.probes && out.response.status == 200
  {
    if bodyLength > 0 then Outcome(s, BodyNotAllowed)
    else
      var out := GetUser(s, env, username, 0, ranked);
      assert (Truthy(username) && CacheGet !in env.faults && SearchKey(username.value) !in s.cache
              && TextSearch !in env.faults) ==> out.state.probes[|s.probes| + 1] == TextQuery(username.value);
      out
  }

  /** The correction changes nothing for a request without a body. */
  lemma GetUserRejectingBodyAgrees(s: State, env: Env, username: Option<string>, ranked: seq<Id>)
    ensures GetUserRejectingBody(s, env, username, 0, ranked) == GetUser(s, env, username, 0, ranked)
  {
  }

  /** As written, without a store connection there is no session and no
      transaction (`session?.withTransaction` is skipped), yet the handler goes
      on to invalidate, publish and answer success: the friendship stays. */
  lemma UnconnectedRemovalReportsSuccess()
    ensures var users := map[Alice := User(Alice, "", "a@x", {Bob}), Bob := User(Bob, "", "b@x", {Alice})];
            var out := RemoveFriend(EmptyState(users), Env(false, {}), Alice, Bob);
            out.response == FriendRemoved && Bob in out.state.users[Alice].friends
  {
  }

  /** The removal handler refusing to proceed without a session: a success
      answer then always means the pair is unfriended on both sides. */
  function RemoveFriendRequiringSession(s: State, env: Env, userId: Id, friendId: Id): (out: Outcome)
    ensures out.response.status == 200 ==>
              && (userId in out.state.users ==> friendId !in out.state.users[userId].friends)
              && (friendId in out.state.users ==> userId !in out.state.users[friendId].friends)
              && out.state.events == s.events + [Event("chat.deleted", userId, friendId)]
    ensures !env.connected ==> out == Outcome(s, RemovalFailed)
    ensures Symmetric(s.users) ==> Symmetric(out.state.users)
    ensures out.state.sessionsOpened - out.state.sessionsEnded == s.sessionsOpened - s.sessionsEnded
  {
    if !env.connected then Outcome(s, RemovalFailed)
    else
      var out := RemoveFriend(s, env, userId, friendId);
      assert Symmetric(s.users) ==> Symmetric(out.state.users) by {
        if Symmetric(s.users) {
          RemoveFriendPreservesSymmetry(s, env, userId, friendId);
        }
      }
      out
  }
}

=== FILE: friend_removal.dfy ===
/** The friend removal handler: a self-unfriend check, a transaction that pulls
    each party from the other's friends, two sequential permission
    invalidations, one `chat.deleted` event, and the store session ended on
    every exit.

    The session is per call: it is opened when the store connection exists and
    the start succeeds, and the `finally` block ends exactly the session this
    call opened. */
module FriendRemoval {
  import opened Domain
  import opened Friendship

  const CannotUnfriendSelf := Response(400, Some(false), Message("Cannot unfriend yourself"))
  const FriendRemoved := Response(200, Some(true), Message("friend removed sucessfully"))
  const RemovalFailed := Response(500, Some(false), Message("Internal server error"))

  /** Whether this call opens a session: `connection?.startSession()` yields one
      only when the connection handle exists and the start does not throw. */
  predicate OpensSession(env: Env) {
    env.connected && StartSession !in env.faults
  }

  /** Whether this call commits the transaction: it runs only inside an opened
      session (`session?.withTransaction`), and commits both pulls or neither. */
  predicate Commits(env: Env, userId: Id, friendId: Id) {
    OpensSession(env) && userId != friendId && Transaction !in env.faults
  }

  /** The steps between the session start and the `finally` block. */
  function RemovalSteps(s: State, env: Env, userId: Id, friendId: Id): (out: Outcome)
    ensures out.state.sessionsOpened == s.sessionsOpened && out.state.sessionsEnded == s.sessionsEnded
    ensures out.state.cache == s.cache && out.state.probes == s.probes && out.state.jobs == s.jobs
    ensures out.state.users == (if Commits(env, userId, friendId) then PullBoth(s.users, userId, friendId) else s.users)
    ensures out.response.status == 200 <==> (userId != friendId && !(OpensSession(env) && Transaction in env.faults)
                                            && Invalidate(userId) !in env.faults && Invalidate(friendId) !in env.faults
                                            && Publish !in env.faults)
  {
    if userId == friendId then
      Outcome(s, CannotUnfriendSelf)
    else if OpensSession(env) && Transaction in env.faults then
      // the transaction aborts: neither pull is applied
      Outcome(s, RemovalFailed)
    else
      var committed := if OpensSession(env) then s.(users := PullBoth(s.users, userId, friendId)) else s;
      if Invalidate(userId) in env.faults then
        Outcome(committed, RemovalFailed)
      else
        var first := committed.(invalidations := committed.invalidations + [userId]);
        if Invalidate(friendId) in env.faults then
          Outcome(first, RemovalFailed)
        else
          var second := first.(invalidations := first.invalidations + [friendId]);
          if Publish in env.faults then
            Outcome(second, RemovalFailed)
          else
            Outcome(second.(events := second.events + [Event(ChatDeleted, userId, friendId)]), FriendRemoved)
  }

  /** `removeFriend`: the authenticated `userId` drops `friendId`. */
  function RemoveFriend(s: State, env: Env, userId: Id, friendId: Id): (out: Outcome)
    // the session this call opens is the session it ends, on every path
    ensures out.state.sessionsOpened == s.sessionsOpened + (if OpensSession(env) then 1 else 0)
    ensures out.state.sessionsEnded == s.sessionsEnded + (if OpensSession(env) then 1 else 0)
    // the cache, the read log and the job queue are never touched
    ensures out.state.cache == s.cache && out.state.probes == s.probes && out.state.jobs == s.jobs
    // a failed session start: 500 and nothing else; without a connection the
    // start is never called, so it cannot fail
    ensures env.connected && StartSession in env.faults ==> out == Outcome(s, RemovalFailed)
    // self-unfriend: refused (400, or 500 when the session start threw first),
    // no friend set changes, nothing invalidated or published
    ensures userId == friendId ==>
              && out.response == (if env.connected && StartSession in env.faults then RemovalFailed else CannotUnfriendSelf)
              && out.state.users == s.users && out.state.invalidations == s.invalidations
              && out.state.events == s.events
    // the pair is unfriended on both sides exactly when the transaction commits
    ensures Commits(env, userId, friendId) ==>
              && (userId in out.state.users ==> friendId !in out.state.users[userId].friends)
              && (friendId in out.state.users ==> userId !in out.state.users[friendId].friends)
    ensures !Commits(env, userId, friendId) ==> out.state.users == s.users
    // no other record changes, and no username, bio or email changes at all
    ensures out.state.users.Keys == s.users.Keys
    ensures forall k :: k in s.users && k != userId && k != friendId ==> out.state.users[k] == s.users[k]
    ensures forall k :: k in s.users ==> out.state.users[k].(friends := s.users[k].friends) == s.users[k]
    // the invalidations happen in order, each only after the previous one completed
    ensures out.state.invalidations == s.invalidations
            || out.state.invalidations == s.invalidations + [userId]
            || out.state.invalidations == s.invalidations + [userId, friendId]
    // success: both invalidations, exactly one chat.deleted event for the pair
    ensures out.response.status == 200 ==>
              && userId != friendId
              && out.response == FriendRemoved
              && out.state.invalidations == s.invalidations + [userId, friendId]
              && out.state.events == s.events + [Event("chat.deleted", userId, friendId)]
    // anything else publishes nothing
    ensures out.response.status != 200 ==> out.state.events == s.events
    // a failed invalidation after the commit: 500, but the pulls stay committed
    ensures Commits(env, userId, friendId) && (Invalidate(userId) in env.faults || Invalidate(friendId) in env.faults) ==>
              out.response == RemovalFailed && out.state.users == PullBoth(s.users, userId, friendId)
    // with no fault at all, a connected store answers success
    ensures env.connected && env.faults == {} && userId != friendId ==> out.response == FriendRemoved
  {
    if env.connected && StartSession in env.faults then
      // the start throws before any session exists, so there is nothing to end
      Outcome(s, RemovalFailed)
    else
      var started := if env.connected then s.(sessionsOpened := s.sessionsOpened + 1) else s;
      var done := RemovalSteps(started, env, userId, friendId);
      var ended := if env.connected then done.state.(sessionsEnded := done.state.sessionsEnded + 1) else done.state;
      Outcome(ended, done.response)
  }

  /** Without a store connection `startSession` is never called, so a fault on
      it changes nothing: the handler still invalidates, publishes and answers
      as it would with the start healthy. */
  lemma UnconnectedIgnoresStartFault(s: State, env: Env, userId: Id, friendId: Id)
    requires !env.connected
    ensures RemoveFriend(s, env, userId, friendId) == RemoveFriend(s, env.(faults := env.faults - {StartSession}), userId, friendId)
    ensures userId != friendId && env.faults <= {StartSession} ==>
              RemoveFriend(s, env, userId, friendId).response == FriendRemoved
  {
  }

  /** The removal keeps a symmetric friendship relation symmetric on every path. */
  lemma RemoveFriendPreservesSymmetry(s: State, env: Env, userId: Id, friendId: Id)
    requires Symmetric(s.users)
    ensures Symmetric(RemoveFriend(s, env, userId, friendId).state.users)
  {
    if Commits(env, userId, friendId) {
      PullBothPreservesSymmetry(s.users, userId, friendId);
    }
  }

  /** The removal takes away exactly the two edges between the pair when it
      commits, and no edge otherwise. */
  lemma RemoveFriendEdges(s: State, env: Env, userId: Id, friendId: Id)
    ensures var after := Edges(RemoveFriend(s, env, userId, friendId).state.users);
            if Commits(env, userId, friendId) then after == Edges(s.users) - {(userId, friendId), (friendId, userId)}
            else after == Edges(s.users)
  {
    if Commits(env, userId, friendId) {
      PullBothEdges(s.users, userId, friendId);
    }
  }

  /** Removing a friendship twice leaves the store as removing it once. */
  lemma RemoveFriendIdempotentOnStore(s: State, env: Env, userId: Id, friendId: Id)
    ensures var once := RemoveFriend(s, env, userId, friendId).state;
            RemoveFriend(once, env, userId, friendId).state.users == once.users
  {
    var once := RemoveFriend(s, env, userId, friendId).state;
    if Commits(env, userId, friendId) {
      var twice := PullBoth(once.users, userId, friendId);
      forall k | k in once.users ensures twice[k] == once.users[k] {
        if k == userId || k == friendId {
          assert twice[k].friends == once.users[k].friends;
        }
      }
    }
  }
}

=== FILE: friendship.dfy ===
/** Friendship edges as the store keeps them: each user record lists the ids of
    its friends, and a friendship is meant to be listed on both records. */
module Friendship {
  import opened Domain

  /** Every listed friendship is listed back: B is in A's friends exactly when A
      is in B's (and neither side names a missing record). */
  ghost predicate Symmetric(users: map<Id, User>) {
    forall a, b :: a in users && b in users[a].friends ==> b in users && a in users[b].friends
  }

  /** The directed edges the store lists: (a, b) when b is in a's friends. */
  ghost function Edges(users: map<Id, User>): set<(Id, Id)> {
    set a, b | a in users && b in users[a].friends :: (a, b)
  }

  /** `findByIdAndUpdate(id, { $pull: { friends: x } })`: every occurrence of `x`
      leaves the friends of `id`; a missing record is left as it is (the update
      finds nothing and reports null, not an error). */
  function Pull(users: map<Id, User>, id: Id, x: Id): (r: map<Id, User>)
    ensures r.Keys == users.Keys
    ensures forall k :: k in users && k != id ==> r[k] == users[k]
    ensures id in users ==> x !in r[id].friends && r[id].friends + {x} >= users[id].friends
    ensures id in users ==> r[id].friends <= users[id].friends
    ensures id in users ==> r[id].(friends := users[id].friends) == users[id]
  {
    if id in users then users[id := users[id].(friends := users[id].friends - {x})] else users
  }

  /** The two pulls of the removal transaction, both applied: `friendId` leaves
      the friends of `userId`, then `userId` leaves the friends of `friendId`. */
  function PullBoth(users: map<Id, User>, userId: Id, friendId: Id): (r: map<Id, User>)
    ensures r.Keys == users.Keys
    ensures userId in r ==> friendId !in r[userId].friends
    ensures friendId in r ==> userId !in r[friendId].friends
    ensures forall k :: k in users ==> r[k].username == users[k].username && r[k].bio == users[k].bio
                                        && r[k].email == users[k].email
    ensures forall k :: k in users && k != userId && k != friendId ==> r[k] == users[k]
  {
    Pull(Pull(users, userId, friendId), friendId, userId)
  }

  /** The removal takes away exactly the two directed edges between the pair. */
  lemma PullBothEdges(users: map<Id, User>, userId: Id, friendId: Id)
    ensures Edges(PullBoth(users, userId, friendId)) == Edges(users) - {(userId, friendId), (friendId, userId)}
  {
    var r := PullBoth(users, userId, friendId);
    var gone := {(userId, friendId), (friendId, userId)};
    forall e | e in Edges(users) - gone ensures e in Edges(r) {
      var (a, b) := e;
      assert a in users && b in users[a].friends;
      if a == userId {
        assert b != friendId;
      }
      if a == friendId {
        assert b != userId;
      }
      assert b in r[a].friends;
    }
    forall e | e in Edges(r) ensures e in Edges(users) - gone {
      var (a, b) := e;
      assert a in r && b in r[a].friends;
    }
  }

  /** The two-sided removal keeps a symmetric store symmetric. */
  lemma PullBothPreservesSymmetry(users: map<Id, User>, userId: Id, friendId: Id)
    requires Symmetric(users)
    ensures Symmetric(PullBoth(users, userId, friendId))
  {
    var r := PullBoth(users, userId, friendId);
    forall a, b | a in r && b in r[a].friends ensures b in r && a in r[b].friends {
      assert b in users[a].friends;
      assert a in users[b].friends;
      assert (a, b) != (userId, friendId) && (a, b) != (friendId, userId);
    }
  }

  /** A single pull, the half of the removal that a non-atomic update would
      leave behind on its own, breaks symmetry whenever the edge existed. */
  lemma OnePullBreaksSymmetry(users: map<Id, User>, userId: Id, friendId: Id)
    requires Symmetric(users)
    requires userId != friendId && userId in users && friendId in users[userId].friends
    ensures !Symmetric(Pull(users, userId, friendId))
  {
    var r := Pull(users, userId, friendId);
    assert userId in users[friendId].friends;
    assert userId in r[friendId].friends;
    assert friendId !in r[userId].friends;
  }
}

=== FILE: profile_reads.dfy ===
/** The cache-aside read handlers: the username search and the current-user read.

    A handler may try to answer twice. The first answer is the one the client
    gets; a second one throws (the headers are already sent), which lands in the
    catch block, whose own 500 answer throws in turn. `Answer` captures that. */
module ProfileReads {
  import opened Domain
  import opened Search

  const BodyNotAllowed := Response(400, Some(false), Message("body not allowed"))
  const UsernameRequired := Response(400, Some(false), Message("Username required"))

  /** The response the client sees when `r` is sent after `early` may already
      have been. */
  function Answer(early: Option<Response>, r: Response): Response
  {
    if early.Some? then early.value else r
  }

  /** `getUser`: search by `username` (the route parameter) through the
      `search:<username>` cache key. `bodyLength` is the request body's
      `length` (0 when the body has none) and `ranked` is the text index's
      ranking of documents for the query, best first. */
  function GetUser(s: State, env: Env, username: Option<string>, bodyLength: nat, ranked: seq<Id>): (out: Outcome)
    // a non-empty body is refused, but the handler does not stop there
    ensures bodyLength > 0 ==> out.response == BodyNotAllowed && out.state.cache == s.cache
    // a missing or empty username: 400 and no read or write anywhere
    ensures !Truthy(username) ==> out.state == s && out.response.status == 400
    ensures !Truthy(username) && bodyLength == 0 ==> out.response == UsernameRequired
    // the store and the side-effect logs are never touched, and only the search key can change
    ensures SameEffects(s, out.state)
    ensures Truthy(username) ==> AgreeExcept(s.cache, out.state.cache, SearchKey(username.value))
    // a failed cache probe reads nothing
    ensures Truthy(username) && CacheGet in env.faults ==>
              out.state == s && (bodyLength == 0 ==> out.response == ServerError)
    // a hit returns the cached payload verbatim and does not query the store
    ensures Truthy(username) && CacheGet !in env.faults && SearchKey(username.value) in s.cache ==>
              && out.state == s.(probes := s.probes + [CacheRead(SearchKey(username.value))])
              && (bodyLength == 0 ==>
                   out.response == Response(200, Some(true), CachedResult(s.cache[SearchKey(username.value)].value)))
    // a miss runs the text query once; the answer is at most ten email-free
    // summaries of stored records, and it is cached for 300 seconds
    ensures Truthy(username) && CacheGet !in env.faults && SearchKey(username.value) !in s.cache
            && TextSearch !in env.faults ==>
              && out.state.probes == s.probes + [CacheRead(SearchKey(username.value)), TextQuery(username.value)]
              && (bodyLength == 0 ==>
                   && out.response.status == 200 && out.response.success == Some(true)
                   && out.response.body.Results?
                   && |out.response.body.items| <= 10
                   && (forall k :: 0 <= k < |out.response.body.items| ==>
                         out.response.body.items[k].id in s.users
                         && out.response.body.items[k] == Summarize(out.response.body.items[k].id, s.users[out.response.body.items[k].id]))
                   && (CacheSet !in env.faults ==>
                         out.state.cache == s.cache[SearchKey(username.value) :=
                                                    CacheEntry(SearchHits(out.response.body.items), Some(300))])
                   && (CacheSet in env.faults ==> out.state.cache == s.cache))
    // a failed text query answers 500 and caches nothing
    ensures Truthy(username) && CacheGet !in env.faults && SearchKey(username.value) !in s.cache
            && TextSearch in env.faults ==>
              out.state == s.(probes := s.probes + [CacheRead(SearchKey(username.value))])
              && (bodyLength == 0 ==> out.response == ServerError)
  {
    var early := if bodyLength > 0 then Some(BodyNotAllowed) else None;
    if !Truthy(username) then
      Outcome(s, Answer(early, UsernameRequired))
    else
      var key := SearchKey(username.value);
      if CacheGet in env.faults then
        Outcome(s, Answer(early, ServerError))
      else
        var probed := s.(probes := s.probes + [CacheRead(key)]);
        if key in s.cache then
          Outcome(probed, Answer(early, Response(200, Some(true), CachedResult(s.cache[key].value))))
        else if TextSearch in env.faults then
          Outcome(probed, Answer(early, ServerError))
        else
          var results := TopMatches(s.users, ranked, SearchLimit);
          var searched := probed.(probes := probed.probes + [TextQuery(username.value)]);
          if early.Some? then
            // sending the results throws before the cache write is reached
            Outcome(searched, early.value)
          else if CacheSet in env.faults then
            // the results were already sent; the failed write only reaches the catch block
            Outcome(searched, Response(200, Some(true), Results(results)))
          else
            Outcome(searched.(cache := searched.cache[key := CacheEntry(SearchHits(results), Some(SearchTtl))]),
                    Response(200, Some(true), Results(results)))
  }

  /** `getCurrentUser`: the profile of the authenticated `userId`, read through
      the `user:<userId>` cache key and cached without expiry on a miss. */
  function GetCurrentUser(s: State, env: Env, userId: Id): (out: Outcome)
    // the store and the side-effect logs are never touched, and only the user key can change
    ensures SameEffects(s, out.state)
    ensures AgreeExcept(s.cache, out.state.cache, UserKey(userId))
    // a failed cache probe reads nothing
    ensures CacheGet in env.faults ==> out == Outcome(s, ServerError)
    // a hit answers the cached snapshot (flagged unsuccessful) without a store read
    ensures CacheGet !in env.faults && UserKey(userId) in s.cache ==>
              out == Outcome(s.(probes := s.probes + [CacheRead(UserKey(userId))]),
                             Response(200, Some(false), CurrentUser(s.cache[UserKey(userId)].value)))
    // a miss on an unknown user: 404, the cache unchanged
    ensures CacheGet !in env.faults && UserKey(userId) !in s.cache && FindById !in env.faults
            && userId !in s.users ==>
              out.response == UserNotFound && out.state.cache == s.cache
              && out.state.probes == s.probes + [CacheRead(UserKey(userId)), FindUser(userId)]
    // a miss on a stored user caches its snapshot without expiry and answers it
    ensures CacheGet !in env.faults && UserKey(userId) !in s.cache && FindById !in env.faults
            && CacheSet !in env.faults && userId in s.users ==>
              && out.response == Response(200, Some(true), CurrentUser(Snapshot(userId, s.users[userId])))
              && out.state.cache == s.cache[UserKey(userId) := CacheEntry(Snapshot(userId, s.users[userId]), None)]
              && out.state.probes == s.probes + [CacheRead(UserKey(userId)), FindUser(userId)]
    // a failing store read or cache write on a miss answers 500 and caches nothing
    ensures CacheGet !in env.faults && UserKey(userId) !in s.cache
            && (FindById in env.faults || (userId in s.users && CacheSet in env.faults)) ==>
              out.response == ServerError && out.state.cache == s.cache
  {
    var key := UserKey(userId);
    if CacheGet in env.faults then
      Outcome(s, ServerError)
    else
      var probed := s.(probes := s.probes + [CacheRead(key)]);
      if key in s.cache then
        Outcome(probed, Response(200, Some(false), CurrentUser(s.cache[key].value)))
      else if FindById in env.faults then
        Outcome(probed, ServerError)
      else
        var found := probed.(probes := probed.probes + [FindUser(userId)]);
        if userId !in s.users then
          Outcome(found, UserNotFound)
        else if CacheSet in env.faults then
          Outcome(found, ServerError)
        else
          var snapshot := Snapshot(userId, s.users[userId]);
          Outcome(found.(cache := found.cache[key := CacheEntry(snapshot, None)]),
                  Response(200, Some(true), CurrentUser(snapshot)))
  }
}

=== FILE: profile_update.dfy ===
/** The profile update handler: a partial update in which a falsy field keeps
    the stored value, plus an optional avatar job for the background queue. */
module ProfileUpdate {
  import opened Domain

  const ProfileUpdated := Response(201, Some(false), Message("Profile updated successfully"))

  /** `value || current`: the new value when it is truthy, the current one otherwise. */
  function OrElse(value: Option<string>, current: string): string
  {
    if Truthy(value) then value.value else current
  }

  /** The record after the update: username and bio follow `OrElse`; email and
      friends are never touched. */
  function Patch(u: User, username: Option<string>, bio: Option<string>): (r: User)
    ensures r.email == u.email && r.friends == u.friends
    ensures r.username == (if Truthy(username) then username.value else u.username)
    ensures r.bio == (if Truthy(bio) then bio.value else u.bio)
  {
    u.(username := OrElse(username, u.username), bio := OrElse(bio, u.bio))
  }

  /** The job `queue.add` receives for an avatar: three attempts, exponential
      backoff from 3000 ms, removed from the queue on completion and on failure. */
  function AvatarJob(imagePath: string, userId: Id): (j: Job)
    ensures j.name == "upload-avatar" && j.imagePath == imagePath && j.userId == userId
    ensures j.attempts == 3 && j.backoff == Backoff("exponential", 3000)
    ensures j.removeOnComplete && j.removeOnFail
  {
    Job(AvatarJobName, imagePath, userId, AvatarAttempts, AvatarBackoff, true, true)
  }

  /** `updateUserInfo`: body fields `username`, `bio` and `avatar` for the
      authenticated `userId`. The enqueue is not awaited, so a queue failure
      never reaches this handler; a failing save happens after the enqueue. */
  function UpdateUserInfo(s: State, env: Env, userId: Id, username: Option<string>, bio: Option<string>,
                          avatar: Option<string>): (out: Outcome)
    // the cache (in particular `user:<userId>`), invalidations, events and sessions are never touched
    ensures out.state.cache == s.cache && out.state.invalidations == s.invalidations
    ensures out.state.events == s.events
    ensures out.state.sessionsOpened == s.sessionsOpened && out.state.sessionsEnded == s.sessionsEnded
    // no record other than the caller's can change, and the set of records is fixed
    ensures out.state.users.Keys == s.users.Keys
    ensures forall k :: k in s.users && k != userId ==> out.state.users[k] == s.users[k]
    // a failed lookup changes nothing
    ensures FindById in env.faults ==> out == Outcome(s, ServerError)
    // an unknown user: 404, and nothing but the lookup happened
    ensures FindById !in env.faults && userId !in s.users ==>
              out == Outcome(s.(probes := s.probes + [FindUser(userId)]), UserNotFound)
    // a stored user: exactly one avatar job when the avatar is truthy, none otherwise
    ensures FindById !in env.faults && userId in s.users ==>
              out.state.probes == s.probes + [FindUser(userId)]
              && (Truthy(avatar) ==> out.state.jobs == s.jobs + [AvatarJob(avatar.value, userId)])
              && (!Truthy(avatar) ==> out.state.jobs == s.jobs)
    // the save stores the patched record and answers 201 (flagged unsuccessful)
    ensures FindById !in env.faults && userId in s.users && Save !in env.faults ==>
              && out.response == ProfileUpdated
              && out.state.users[userId].username == (if Truthy(username) then username.value else s.users[userId].username)
              && out.state.users[userId].bio == (if Truthy(bio) then bio.value else s.users[userId].bio)
              && out.state.users[userId].email == s.users[userId].email
              && out.state.users[userId].friends == s.users[userId].friends
    // a failed save leaves the record as it was; the job, queued before the save, stays
    ensures FindById !in env.faults && userId in s.users && Save in env.faults ==>
              out.response == ServerError && out.state.users == s.users
  {
    if FindById in env.faults then
      Outcome(s, ServerError)
    else
      var found := s.(probes := s.probes + [FindUser(userId)]);
      if userId !in s.users then
        Outcome(found, UserNotFound)
      else
        var queued := if Truthy(avatar) then found.(jobs := found.jobs + [AvatarJob(avatar.value, userId)]) else found;
        if Save in env.faults then
          Outcome(queued, ServerError)
        else
          var updated := Patch(s.users[userId], username, bio);
          Outcome(queued.(users := queued.users[userId := updated]), ProfileUpdated)
  }

  /** Applying the same update twice stores what applying it once stores. */
  lemma PatchIdempotent(u: User, username: Option<string>, bio: Option<string>)
    ensures Patch(Patch(u, username, bio), username, bio) == Patch(u, username, bio)
  {
  }

  /** An update whose username and bio are both falsy leaves the record as it was:
      falsy values never clear a field. */
  lemma FalsyPatchIsIdentity(u: User, username: Option<string>, bio: Option<string>)
    requires !Truthy(username) && !Truthy(bio)
    ensures Patch(u, username, bio) == u
  {
  }
}

=== FILE: scenarios.dfy ===
/** Properties that relate several requests: cache-aside population followed by
    a hit, the staleness the update path leaves behind, the separation of the
    two cache namespaces, and the friendship symmetry every handler keeps. */
module Scenarios {
  import opened Domain
  import opened Search
  import opened Friendship
  import opened ProfileReads
  import opened ProfileUpdate
  import opened FriendRemoval

  /** A search miss caches its answer, and the same search afterwards returns
      that answer verbatim from the cache, without a text query, whatever the
      store and the index hold by then. */
  lemma SearchMissThenHit(s: State, env: Env, query: string, ranked: seq<Id>,
                          users': map<Id, User>, env': Env, ranked': seq<Id>)
    requires query != "" && SearchKey(query) !in s.cache
    requires CacheGet !in env.faults && TextSearch !in env.faults && CacheSet !in env.faults
    requires CacheGet !in env'.faults
    ensures var first := GetUser(s, env, Some(query), 0, ranked);
            var later := first.state.(users := users');
            var second := GetUser(later, env', Some(query), 0, ranked');
            && first.response.body.Results?
            && second.response == Response(200, Some(true), CachedResult(SearchHits(first.response.body.items)))
            && second.state == later.(probes := later.probes + [CacheRead(SearchKey(query))])
  {
  }

  /** A profile miss caches the stored snapshot, and the next read returns that
      snapshot from the cache without a store read. */
  lemma CurrentUserMissThenHit(s: State, env: Env, userId: Id, env': Env)
    requires userId in s.users && UserKey(userId) !in s.cache
    requires CacheGet !in env.faults && FindById !in env.faults && CacheSet !in env.faults
    requires CacheGet !in env'.faults
    ensures var first := GetCurrentUser(s, env, userId);
            var second := GetCurrentUser(first.state, env', userId);
            && first.response.body == CurrentUser(Snapshot(userId, s.users[userId]))
            && second.response.body == first.response.body
            && second.state.probes == first.state.probes + [CacheRead(UserKey(userId))]
  {
  }

  /** The update path does not invalidate `user:<id>`: after a profile read has
      cached a snapshot and the username is then changed, the next profile read
      still answers the old username while the store holds the new one. */
  lemma StaleProfileAfterUpdate(s: State, env: Env, userId: Id, newName: string)
    requires userId in s.users && UserKey(userId) !in s.cache
    requires env.faults == {}
    requires newName != "" && newName != s.users[userId].username
    ensures var read := GetCurrentUser(s, env, userId);
            var update := UpdateUserInfo(read.state, env, userId, Some(newName), None, None);
            var reread := GetCurrentUser(update.state, env, userId);
            && update.state.users[userId].username == newName
            && reread.response.body == CurrentUser(Snapshot(userId, s.users[userId]))
            && reread.response.body.snapshot.user.username != update.state.users[userId].username
  {
  }

  /** Removal does not invalidate `user:<id>` either: a cached snapshot keeps
      listing the removed friend. */
  lemma StaleFriendsAfterRemoval(s: State, env: Env, userId: Id, friendId: Id)
    requires userId in s.users && friendId in s.users[userId].friends
    requires UserKey(userId) !in s.cache
    requires env.faults == {} && env.connected && userId != friendId
    ensures var read := GetCurrentUser(s, env, userId);
            var removal := RemoveFriend(read.state, env, userId, friendId);
            var reread := GetCurrentUser(removal.state, env, userId);
            && removal.response == FriendRemoved
            && friendId !in removal.state.users[userId].friends
            && friendId in reread.response.body.snapshot.user.friends
  {
  }

  /** A search writes no profile entry, and a profile read writes no search entry. */
  lemma NamespacesDoNotInterfere(s: State, env: Env, query: string, bodyLength: nat, ranked: seq<Id>, userId: Id)
    ensures var c := GetUser(s, env, Some(query), bodyLength, ranked).state.cache;
            (UserKey(userId) in c <==> UserKey(userId) in s.cache)
            && (UserKey(userId) in c ==> c[UserKey(userId)] == s.cache[UserKey(userId)])
    ensures var c := GetCurrentUser(s, env, userId).state.cache;
            (SearchKey(query) in c <==> SearchKey(query) in s.cache)
            && (SearchKey(query) in c ==> c[SearchKey(query)] == s.cache[SearchKey(query)])
  {
    KeysAreDisjoint(query, userId);
    var k := UserKey(userId);
    var c := GetUser(s, env, Some(query), bodyLength, ranked).state.cache;
    if query != "" {
      AgreeExceptElsewhere(s.cache, c, SearchKey(query), k);
    }
    AgreeExceptElsewhere(s.cache, GetCurrentUser(s, env, userId).state.cache, k, SearchKey(query));
  }

  /** A search touches the cache entry of its own query only: the entry of any
      other query is as it was. */
  lemma OtherSearchesUntouched(s: State, env: Env, query: string, bodyLength: nat, ranked: seq<Id>, other: string)
    requires other != query
    ensures var c := GetUser(s, env, Some(query), bodyLength, ranked).state.cache;
            (SearchKey(other) in c <==> SearchKey(other) in s.cache)
            && (SearchKey(other) in c ==> c[SearchKey(other)] == s.cache[SearchKey(other)])
  {
    SearchKeyInjective(query, other);
    if query != "" {
      AgreeExceptElsewhere(s.cache, GetUser(s, env, Some(query), bodyLength, ranked).state.cache,
                           SearchKey(query), SearchKey(other));
    }
  }

  /** The read handlers never touch the store, so they keep the friendship
      relation symmetric. */
  lemma ReadsPreserveSymmetry(s: State, env: Env, query: Option<string>, bodyLength: nat, ranked: seq<Id>, userId: Id)
    requires Symmetric(s.users)
    ensures Symmetric(GetUser(s, env, query, bodyLength, ranked).state.users)
    ensures Symmetric(GetCurrentUser(s, env, userId).state.users)
  {
  }

  /** The profile update changes no friends list, so it keeps the friendship
      relation symmetric. */
  lemma UpdatePreservesSymmetry(s: State, env: Env, userId: Id, username: Option<string>, bio: Option<string>,
                                avatar: Option<string>)
    requires Symmetric(s.users)
    ensures Symmetric(UpdateUserInfo(s, env, userId, username, bio, avatar).state.users)
  {
    var u := UpdateUserInfo(s, env, userId, username, bio, avatar).state.users;
    assert forall k :: k in s.users ==> u[k].friends == s.users[k].friends;
  }
}

=== FILE: search.dfy ===
/** The text search behind the search endpoint: the store ranks its documents
    by text score (the ranking itself is the text index's and arrives as a
    sequence of ids, best first), keeps the first `limit` of them and projects
    the email field away. */
module Search {
  import opened Domain

  /** The stored record of `id` with its email projected away. */
  function Summarize(id: Id, u: User): Summary
  {
    Summary(id, u.username, u.bio, u.friends)
  }

  /** The ids of `ranked` that name stored documents, in ranked order. */
  function StoredIds(users: map<Id, User>, ranked: seq<Id>): seq<Id>
  {
    if |ranked| == 0 then []
    else if ranked[0] in users then [ranked[0]] + StoredIds(users, ranked[1..])
    else StoredIds(users, ranked[1..])
  }

  function Take<T>(xs: seq<T>, n: nat): seq<T>
  {
    if n < |xs| then xs[..n] else xs
  }

  function SummarizeAll(users: map<Id, User>, ids: seq<Id>): (r: seq<Summary>)
    requires forall i :: 0 <= i < |ids| ==> ids[i] in users
  {
    seq(|ids|, i requires 0 <= i < |ids| => Summarize(ids[i], users[ids[i]]))
  }

  /** The result of `find($text).sort(textScore).limit(limit).select("-email")`:
      at most `limit` hits, each the email-free projection of a stored record
      the index ranked, in ranked order. */
  function TopMatches(users: map<Id, User>, ranked: seq<Id>, limit: nat): (r: seq<Summary>)
    ensures |r| <= limit && |r| <= |ranked|
    ensures forall k :: 0 <= k < |r| ==>
              r[k].id in users && r[k].id in ranked && r[k] == Summarize(r[k].id, users[r[k].id])
    decreases |ranked|
  {
    if limit == 0 || |ranked| == 0 then []
    else if ranked[0] in users then
      [Summarize(ranked[0], users[ranked[0]])] + TopMatches(users, ranked[1..], limit - 1)
    else TopMatches(users, ranked[1..], limit)
  }

  lemma {:induction false} StoredIdsAreStored(users: map<Id, User>, ranked: seq<Id>)
    ensures forall i :: 0 <= i < |StoredIds(users, ranked)| ==> StoredIds(users, ranked)[i] in users
    decreases |ranked|
  {
    if |ranked| > 0 {
      StoredIdsAreStored(users, ranked[1..]);
    }
  }

  /** TopMatches agrees with the reference reading "the first `limit` stored
      documents of the ranking, each summarized". */
  lemma {:induction false} TopMatchesIsFirstStored(users: map<Id, User>, ranked: seq<Id>, limit: nat)
    ensures forall i :: 0 <= i < |StoredIds(users, ranked)| ==> StoredIds(users, ranked)[i] in users
    ensures TopMatches(users, ranked, limit) == SummarizeAll(users, Take(StoredIds(users, ranked), limit))
    decreases |ranked|
  {
    StoredIdsAreStored(users, ranked);
    if limit == 0 || |ranked| == 0 {
    } else {
      TopMatchesIsFirstStored(users, ranked[1..], if ranked[0] in users then limit - 1 else limit);
      if ranked[0] in users {
        var rest := StoredIds(users, ranked[1..]);
        assert StoredIds(users, ranked) == [ranked[0]] + rest;
        var lhs := TopMatches(users, ranked, limit);
        var rhs := SummarizeAll(users, Take([ranked[0]] + rest, limit));
        assert Take([ranked[0]] + rest, limit) == [ranked[0]] + Take(rest, limit - 1);
        assert |lhs| == |rhs|;
        forall k | 0 <= k < |lhs| ensures lhs[k] == rhs[k] {
          if k > 0 {
            assert lhs[k] == TopMatches(users, ranked[1..], limit - 1)[k - 1];
          }
        }
      }
    }
  }

  /** The limit is the only thing that drops a stored match: when fewer than
      `limit` hits come back, every stored document the index ranked is among them. */
  lemma {:induction false} ShortResultIsComplete(users: map<Id, User>, ranked: seq<Id>, limit: nat, i: nat)
    requires i < |ranked| && ranked[i] in users
    requires |TopMatches(users, ranked, limit)| < limit
    ensures exists k :: 0 <= k < |TopMatches(users, ranked, limit)| && TopMatches(users, ranked, limit)[k].id == ranked[i]
    decreases |ranked|
  {
    var r := TopMatches(users, ranked, limit);
    if ranked[0] in users {
      assert r[0].id == ranked[0];
      if i > 0 {
        ShortResultIsComplete(users, ranked[1..], limit - 1, i - 1);
        var k :| 0 <= k < |TopMatches(users, ranked[1..], limit - 1)| && TopMatches(users, ranked[1..], limit - 1)[k].id == ranked[i];
        assert r[k + 1].id == ranked[i];
      }
    } else {
      assert i > 0;
      ShortResultIsComplete(users, ranked[1..], limit, i - 1);
    }
  }
}
